=== FILE: README.md ===
# A* grid path finder — a Dafny model

This project models the search core of the `AStar` Unity component. The component builds a square grid of nodes, each classified as open floor or wall. It then runs A* from a start cell to an end cell, keeping:

- an open list, scanned for the node of least `f = g + h`;
- a closed set, seeded with the walls;
- parent links, written when a neighbour's path cost improves.

When the end cell is extracted, the route is read back along the parent links. `PathFind` and `PicturePathFind` share this loop. They differ only in where the grid comes from.

Modules, in dependency order:

- `GridModel` (grid.dfy): coordinates, the cell classification, the node record, `GetFCost`, `Bound`, and the cell count of the grid.
- `Neighbourhood` (neighbours.dfy): `ReturnNeighbours` as written, including the substitution of `(0,0)` for a displaced position with a negative coordinate. Also the corrected generator, and the closed form `Generated` of both.
- `OpenList` (openlist.dfy): `GetLowestFCost`, which keeps the last of several minima, and `List.Remove`.
- `PathReconstruction` (reconstruct.dfy): `ReconstructPath` as a walk along parent links, and why the walk ends at the start without repeating a cell.
- `AStarSearch` (search.dfy): grid seeding, one relaxation step, one iteration, and the loop as a recursive function `Run`.
- `SearchInvariant` (invariant.dfy): the loop invariant and its preservation. It uses a ghost `rank`, the order in which cells were expanded, and a closure property `Frontier`: every generated, in-bounds, non-wall neighbour of an expanded cell is open or expanded.
- `PathFinder` (pathfind.dfy): `PathFind` as a loop method. Its contract says what a finished search reports:
  - a found path is a route from the goal back to the start, through non-wall cells, one generated step at a time, with the goal's `g` equal to the summed step cost;
  - an unsuccessful search ends with an empty open list, and no passage leads from the start to the goal;
  - at most `dimension * dimension` cells are expanded, and a successful search makes at most `dimension * dimension` loop passes, counting the pass that extracts the goal.
- `OriginSubstitution` (origin.dfy): the `(0,0)` substitution, shown against the corrected rule.

In `AStarSearch`, `Removed` is the removal and closing at AStar.cs:86-87, `Iterate` the extraction and goal test at AStar.cs:77-84, `Proceed` the rest of a non-goal iteration (AStar.cs:86-110), and `Search` the whole of `PathFind` (AStar.cs:41-113). What they compute is stated through `SearchInvariant.RemovedKeepsInv`, `SearchInvariant.ExpandPreservesInv`, `PathFinder.RunUnfolds` and `PathFinder.PathFind`. Proof helpers without a row include `SearchInvariant.RelaxCases`, which splits `Relax` into its no-change and update cases, the `UpdateKeeps…` and `RemovedKeeps…` lemmas behind single invariant clauses, and `PathFinder.SameOutcome`, the loop's outcome invariant.

The neighbour generator is a parameter of the search (`NeighbourRule`). `AsWritten` is the code's generator; `Excluding` drops out-of-range displacements. Every search result holds under both rules. Only under `Excluding` does a route move between adjacent cells alone.

## Model

| member | source | states |
|---|---|---|
| GridModel.GetFCost | AStar.cs:266-269 | f becomes g + h; position, cell, g, h and parent are left as they were |
| GridModel.Bound | AStar.cs:199-204 | true exactly when the position is one of the cells of the dimension x dimension grid |
| GridModel.RectCount | AStar.cs:47-50 | the cells with 0 <= x < width and 0 <= y < height number width * height |
| GridModel.CellsCount | AStar.cs:43 | the grid has exactly dimension * dimension cells, one node each |
| Neighbourhood.DifferenceIsAdjacency | AStar.cs:224-234 | the eight displacements are exactly the steps to the eight surrounding cells |
| Neighbourhood.ReturnNeighbours | AStar.cs:222-247 | always eight entries in the displacement order; entry i is the position displaced by the i-th displacement, or (0,0) when that has a negative coordinate; no entry is negative, and each is adjacent or (0,0) |
| Neighbourhood.ReturnNeighboursComplete | AStar.cs:236-244 | every adjacent cell with no negative coordinate is listed |
| Neighbourhood.ReturnNeighboursMembers | AStar.cs:236-244 | a cell is listed if and only if it is adjacent with no negative coordinate, or it is (0,0) and the centre lies in row or column 0 |
| Neighbourhood.KeepNonNegative | AStar.cs:239-240 | the result holds exactly the displaced positions with no negative coordinate |
| Neighbourhood.InRangeNeighbours | AStar.cs:240-243 | corrected generator: lists exactly the adjacent cells with no negative coordinate |
| Neighbourhood.Neighbours | AStar.cs:89 | the list the loop iterates holds exactly the cells `Generated` describes for the chosen rule |
| OpenList.LowestIndex | AStar.cs:207-211 | the scan that moves to every entry no larger than the best so far ends at a minimum of f that every later entry strictly exceeds |
| OpenList.LastMinimumUnique | AStar.cs:210 | only one index is a minimum with every later entry strictly larger, so the choice is determined by the f values |
| OpenList.GetLowestFCost | AStar.cs:205-213 | returns an index into the non-empty list whose node has least f; every later node has strictly larger f; the index equals `LowestIndex` |
| OpenList.RemoveFirst | AStar.cs:86 | the result is the list's multiset minus one copy of the removed cell |
| OpenList.RemoveFirstOrder | AStar.cs:86 | removal takes out the first occurrence of the cell and keeps every other entry in its order |
| OpenList.RemoveFirstAbsent | AStar.cs:86 | removing a cell that is not listed leaves the list unchanged |
| OpenList.RemoveFirstMembers | AStar.cs:86 | on a duplicate-free list, removal keeps it duplicate-free and leaves exactly the other members |
| PathReconstruction.Walk | AStar.cs:183-187 | the walk is a parent chain from its first cell; it stops at a node without a parent or when its step bound runs out |
| PathReconstruction.ReconstructPath | AStar.cs:180-188 | the result is a parent chain that starts at the goal |
| PathReconstruction.WalkReachesRoot | AStar.cs:183-186 | when parents come before their children in expansion order, the walk reaches a node without a parent before its bound runs out, through expanded cells only |
| PathReconstruction.ReconstructPathEndsAtRoot | AStar.cs:180-188 | under the same condition, reconstruction ends at a node without a parent, and every cell after the goal was expanded |
| PathReconstruction.PathCostIsG | AStar.cs:96-100 | along a parent chain, g at the head is g at the tail plus the summed step costs |
| PathReconstruction.RankedChainDistinct | AStar.cs:183-187 | a parent chain through expanded cells visits no cell twice |
| PathReconstruction.RanksDescend | AStar.cs:103 | expansion order does not increase along a chain of parents |
| AStarSearch.Init | AStar.cs:43-71 | one fresh node per cell with h the distance to the goal and no parent; the closed set is exactly the in-bounds walls; the start has g = 0 and f = h; the open list is the start alone |
| AStarSearch.Relax | AStar.cs:91-108 | out-of-bounds and closed cells are skipped, and so is an open cell whose path through `current` is not strictly cheaper: the state is then unchanged; an in-bounds, unclosed cell that is new or strictly cheaper through `current` is open afterwards, with `current` as parent, g through `current`, h its distance to the goal and f = g + h; only the relaxed cell's node changes, and the cell is appended only if new |
| AStarSearch.RelaxAll | AStar.cs:89-110 | the closed set and closed nodes are unchanged; the old open list is a prefix of the new one; every appended cell was listed and not closed |
| AStarSearch.RelaxAllFrame | AStar.cs:89-110 | the neighbour loop leaves the node of an unlisted cell unchanged |
| AStarSearch.RelaxAllAdopts | AStar.cs:98-103 | a listed, in-bounds cell that was neither open nor closed ends the neighbour loop with `current` as its parent |
| AStarSearch.Expand | AStar.cs:86-110 | an iteration adds exactly `current` to the closed set and leaves every closed node unchanged |
| AStarSearch.ExpandMovesOne | AStar.cs:86-87 | on a duplicate-free open list, `current` leaves the open list, every other open cell stays, and only `current` is closed |
| AStarSearch.Run | AStar.cs:75-111 | the loop ends with a path or with failure, never with the start-lookup failure |
| SearchInvariant.InitEstablishesInv | AStar.cs:43-71 | the seeded grid satisfies the loop invariant with nothing expanded |
| SearchInvariant.UpdatePreservesInv | AStar.cs:100-108 | writing the improved node for an unclosed neighbour of an expanded cell keeps the invariant |
| SearchInvariant.RelaxPreservesInv | AStar.cs:91-108 | relaxing a generated neighbour of an expanded cell keeps the invariant |
| SearchInvariant.RelaxAllPreservesInv | AStar.cs:89-110 | the whole neighbour loop keeps the invariant |
| SearchInvariant.RemovedKeepsInv | AStar.cs:86-87 | taking any open cell off the open list and closing it keeps the invariant, with that cell ranked last |
| SearchInvariant.ExpandPreservesInv | AStar.cs:86-110 | expanding any open cell (closing it and running the neighbour loop) keeps the invariant, with that cell ranked last |
| SearchInvariant.RelaxAllCovers | AStar.cs:89-108 | every listed, in-bounds, unclosed cell is open after the neighbour loop |
| SearchInvariant.ExpandDiscovers | AStar.cs:86-110 | after an iteration, the other open cells are still open and every generated, in-bounds, unclosed neighbour of `current` is open |
| SearchInvariant.ExpandKeepsFrontier | AStar.cs:86-110 | an iteration keeps every generated, in-bounds, non-wall neighbour of an expanded cell open or expanded |
| PathFinder.InvSettled | AStar.cs:60-71 | walls are closed and untouched, the open list has no duplicates and meets the closed set only in a walled start, and the start keeps g = 0 and no parent |
| PathFinder.ChainSteps | AStar.cs:94-103 | each step of a parent chain is generated by the neighbour rule and enters a non-wall cell |
| PathFinder.ChainEndsAtStart | AStar.cs:67-71 | a parent chain from an open cell through expanded cells ends, at a node without a parent, at the start |
| PathFinder.FoundPathShape | AStar.cs:79-81 | the path reconstructed from the extracted goal ends at the start, repeats no cell and stays in the grid |
| PathFinder.FoundIsRoute | AStar.cs:79-81 | the reconstructed path is a route: a parent chain from the goal to the start through non-wall cells, one generated step at a time, with the goal's g equal to the summed step cost |
| PathFinder.RunUnfolds | AStar.cs:77-87 | one iteration: when the extracted cell is the goal the result is its reconstructed path, otherwise the result of the loop on the expanded state |
| PathFinder.RunStops | AStar.cs:75 | an empty open list ends the loop with failure |
| PathFinder.ExcludingRouteIsContiguous | AStar.cs:240-243 | under the corrected rule, every step of a route is between adjacent cells |
| PathFinder.PassageStaysExpanded | AStar.cs:89-110 | with the open list empty, a passage of generated non-wall steps from an expanded cell ends at an expanded cell |
| PathFinder.FoundFacts | AStar.cs:79-83 | when the goal is extracted, the report holds: a route, a settled state, and fewer than dimension * dimension expansions, so at most dimension * dimension loop passes |
| PathFinder.NotFoundFacts | AStar.cs:112 | when the open list runs dry, the goal (if not a wall) was never closed and no passage leads from the start to it |
| PathFinder.LoopStarts | AStar.cs:67-71 | the seeded grid satisfies the loop invariant, with one unit of fuel per cell plus one |
| PathFinder.LoopStep | AStar.cs:77-110 | a non-goal iteration keeps the loop invariant, expands one more cell, and leaves the rest of the search unchanged |
| PathFinder.Step | AStar.cs:77-110 | one loop pass reports the goal exactly when the extracted cell (the last entry of least f) is the goal, leaving the state as it is; otherwise the next state is that cell's expansion, with one more cell expanded; the loop invariant holds and the rest of the search is unchanged |
| PathFinder.RunLoop | AStar.cs:75-111 | the loop stops either having extracted the goal, with the outcome its reconstructed path, or with the open list empty; it keeps the loop invariant, counts one pass per expanded cell, and its final state has the outcome of the whole search |
| PathFinder.Finish | AStar.cs:79-112 | once the loop stops, the outcome is the reconstructed path if the goal was extracted and failure otherwise, and the report holds |
| PathFinder.PathFind | AStar.cs:41-113 | a start outside the grid fails, and only then; otherwise a found path is a route, failure means no passage reaches the goal, at most dimension * dimension cells are expanded, and a successful search makes at most dimension * dimension loop passes |
| OriginSubstitution.OriginListedFarAway | AStar.cs:240-243 | as written, (0,0) is listed around (0,5), which is not adjacent to it |
| OriginSubstitution.AsWrittenAdoptsOrigin | AStar.cs:240-243 | as written, expanding (0,5) (so the grid is at least 6 x 6) while (0,0) is undiscovered makes (0,5) the parent of (0,0) |
| OriginSubstitution.ExcludingLeavesOrigin | AStar.cs:240-243 | corrected, (0,0) is not listed around (0,5), and expanding (0,5) leaves the node of (0,0) unchanged |

## Left out

- AStarSearch.Relax: `g`, `h` and `f` are exact reals rather than 32-bit floats, so the strict comparison at AStar.cs:98 has no rounding. `DirectionDistance` (AStar.cs:214-220) is the parameter `dist`, an arbitrary function of two cells; the model does not use its square root or its values.
- AStarSearch.Init: the Perlin-noise classification with `seed` and `floorThreshold` (AStar.cs:51-52), and the grid `ImageParser` delivers (AStar.cs:117-119), are the parameter `classify`. `ImageParser` is not part of this model.
- AStarSearch.Init: the `Node` constructors (AStar.cs:271-290) appear only as `FreshNode`, a node with default g, f and parent.
- PathFinder.PathFind: the tile, wall and marker objects it instantiates (AStar.cs:56, 61, 185, 194) and its log lines (AStar.cs:82, 112, 148, 178) are outside the model. The outcome, final state and expansion count are returned instead.
- PathFinder.PathFind: `PicturePathFind` is covered only when the image grid is `dimension` x `dimension`. That method sizes its loops by the image (AStar.cs:122-124), but `Bound` still tests against the `dimension` field (AStar.cs:157, 202). When the two differ, in-grid cells can be skipped or the lookup can leave the array. Neither case is modelled. The model also assumes that the parser delivers fresh nodes, one per cell, each at its own array index, with g = 0, f = 0 and no parent. `PicturePathFind` resets only every node's h (AStar.cs:126) and the start's g and f (AStar.cs:135-136), so a parent or g left on a parsed node, the start's included, is not modelled.
- PathFinder.PathFind: `dimension` is a `nat`. A negative value, which makes the grid allocation at AStar.cs:43 throw, is not modelled.
- PathFinder.PathFind: a start cell that is a wall is not rejected, as in the code (AStar.cs:67-71). The search runs from it, and `Settled` allows that one cell to be both open and closed. Start and end cells are not validated against the walls, and a start outside the grid surfaces only as the failed lookup (`StartOutOfRange`), as in the code.
- PathFinder.PathFind: the Unity entry points `Start` and `Update` with `Recompute` and `FromPicture` (AStar.cs:21-39) only choose which entry point runs. The grid, open list and closed set are fields the next run overwrites (AStar.cs:8-16); the model builds them fresh in each call.
- PathFinder.PathFind: `closedList` and `openList` hold node references (AStar.cs:15-16). The model keys nodes by coordinate instead. This is equivalent because each cell has exactly one node.
- PathReconstruction.ReconstructPath: the walk carries a step bound of one more than the number of nodes; the loop at AStar.cs:183 has none. `ReconstructPathEndsAtRoot` shows that the bound is never reached on states the search produces. The unused `curent` parameter of the second overload (AStar.cs:189) is dropped.
- AStarSearch.Run: its own contract says only that the loop never fails at the start lookup. What it computes is stated through `PathFinder.RunUnfolds`, `PathFinder.RunStops` and `PathFinder.PathFind`. Its fuel of one iteration per cell plus one is never exhausted, because `LoopStep` spends one unit per expansion.
- PathFinder.PathFind: route optimality is not claimed. With an arbitrary `dist`, the heuristic need not be admissible.

## Findings

| source | as written | input that shows it | evidently intended | confidence | as-written member | corrected member |
|---|---|---|---|---|---|---|
| AStar.cs:240-243 | a displaced position with a negative coordinate is replaced by (0,0) rather than dropped, so every cell in row or column 0 lists (0,0) as a neighbour | expanding (0,5) on a grid of dimension 6 or more while (0,0) is neither open nor closed: (0,0) gets (0,5) as its parent, a jump of five rows in one step. Traced by hand for a whole search: on an all-open 6 x 6 grid with start (0,5), goal (0,0) and the Euclidean distance, (0,5), (0,4), (0,3), (0,2) and (0,1) are expanded (every tie at f = 5 goes to the later entry), (0,0) keeps (0,5) as parent because the path through (0,1) costs no less, and the reported path is (0,0), (0,5) | out-of-range displacements are left out, and only adjacent cells are neighbours | not executed | OriginSubstitution.AsWrittenAdoptsOrigin | OriginSubstitution.ExcludingLeavesOrigin |

The corrected generator is `Neighbourhood.InRangeNeighbours`, used by the search under the rule `Excluding`. Under that rule `PathFinder.ExcludingRouteIsContiguous` proves that every step of a found route is between adjacent cells.

=== FILE: grid.dfy ===
/** The grid of the A* path finder: coordinates, cell classification, the
    per-cell search node and the bounds test. */
module GridModel {

  /** A grid coordinate (Unity's Vector2Int). */
  datatype Pos = Pos(x: int, y: int)

  /** Vector2Int.zero, the placeholder the neighbour generator substitutes
      for a displaced position with a negative coordinate. */
  const Origin: Pos := Pos(0, 0)

  /** Node.Cell: how a cell was classified when the grid was built. Only
      `Closed` (a wall) matters to the search. */
  datatype Cell = Open | Closed | Start | End

  datatype Option<T> = None | Some(value: T)

  /** One search node per grid cell. A node's parent is a reference to
      another node; since there is exactly one node per cell, the coordinate
      of that node identifies it. */
  datatype Node = Node(position: Pos, cell: Cell, g: real, h: real, f: real, parent: Option<Pos>)

  /** Node.GetFCost: brings f in line with g and h and touches nothing else. */
  function GetFCost(n: Node): (r: Node)
    ensures r.f == r.g + r.h
    ensures r.position == n.position && r.cell == n.cell
    ensures r.g == n.g && r.h == n.h && r.parent == n.parent
  {
    n.(f := n.h + n.g)
  }

  /** The cells of a `width` x `height` rectangle anchored at the origin. */
  function Rect(width: nat, height: nat): set<Pos> {
    set x: int, y: int | 0 <= x < width && 0 <= y < height :: Pos(x, y)
  }

  /** The cells of the `dimension` x `dimension` grid, one node each. */
  function Cells(dimension: nat): set<Pos> {
    Rect(dimension, dimension)
  }

  /** The bounds test applied to every neighbour before it is looked up. */
  function Bound(dimension: nat, p: Pos): (b: bool)
    ensures b <==> p in Cells(dimension)
  {
    assert p.x >= 0 && p.y >= 0 && p.x < dimension && p.y < dimension ==> Pos(p.x, p.y) in Cells(dimension);
    p.x >= 0 && p.y >= 0 && p.x < dimension && p.y < dimension
  }

  function Column(x: int, height: nat): set<Pos> {
    set y: int | 0 <= y < height :: Pos(x, y)
  }

  lemma {:induction false} ColumnCount(x: int, height: nat)
    ensures |Column(x, height)| == height
  {
    if height == 0 {
      assert Column(x, height) == {};
    } else {
      ColumnCount(x, height - 1);
      assert Column(x, height) == Column(x, height - 1) + {Pos(x, height - 1)};
    }
  }

  lemma RectMember(width: nat, height: nat, q: Pos)
    ensures q in Rect(width, height) <==> 0 <= q.x < width && 0 <= q.y < height
  {
    if 0 <= q.x < width && 0 <= q.y < height {
      assert q == Pos(q.x, q.y);
    }
  }

  lemma ColumnMember(x: int, height: nat, q: Pos)
    ensures q in Column(x, height) <==> q.x == x && 0 <= q.y < height
  {
    if q.x == x && 0 <= q.y < height {
      assert q == Pos(x, q.y);
    }
  }

  /** A rectangle is the one a column narrower plus its last column, the two
      disjoint. */
  lemma RectSplit(width: nat, height: nat)
    requires width > 0
    ensures Rect(width, height) == Rect(width - 1, height) + Column(width - 1, height)
    ensures Rect(width - 1, height) * Column(width - 1, height) == {}
  {
    var left, last := Rect(width - 1, height), Column(width - 1, height);
    forall q
      ensures q in Rect(width, height) <==> q in left || q in last
      ensures q in last ==> q !in left
    {
      RectMember(width, height, q);
      RectMember(width - 1, height, q);
      ColumnMember(width - 1, height, q);
    }
  }

  lemma {:induction false} RectCount(width: nat, height: nat)
    ensures |Rect(width, height)| == width * height
  {
    if width == 0 {
      assert Rect(width, height) == {};
    } else {
      RectCount(width - 1, height);
      ColumnCount(width - 1, height);
      RectSplit(width, height);
      assert width * height == (width - 1) * height + height;
    }
  }

  /** The grid holds exactly dimension * dimension nodes. */
  lemma CellsCount(dimension: nat)
    ensures |Cells(dimension)| == dimension * dimension
  {
    RectCount(dimension, dimension);
  }

  /** Removing a subset removes exactly its size. */
  lemma SubsetCardinality<T>(a: set<T>, b: set<T>)
    requires a <= b
    ensures |b - a| == |b| - |a|
  {
    assert b == (b - a) + a;
    assert (b - a) * a == {};
  }

  lemma RemoveOneCount<T>(a: set<T>, k: T)
    requires k in a
    ensures |a - {k}| == |a| - 1
  {
  }

  /** Adding a new key to a map grows its key set by one and shrinks what
      remains of `cells` outside the keys by one. */
  lemma KeysGrow<T, V>(m: map<T, V>, cells: set<T>, k: T, v: V)
    requires k in cells && k !in m
    ensures |m[k := v].Keys| == |m.Keys| + 1
    ensures |cells - m[k := v].Keys| == |cells - m.Keys| - 1
  {
    var keys := m[k := v].Keys;
    assert keys == m.Keys + {k};
    RemoveOneCount(m.Keys + {k}, k);
    assert m.Keys + {k} - {k} == m.Keys;
    RemoveOneCount(cells - m.Keys, k);
    assert cells - keys == (cells - m.Keys) - {k};
  }
}

=== FILE: invariant.dfy ===
/** The invariant of the search loop and its preservation by one iteration.
    `rank` is ghost bookkeeping: the order in which cells were expanded, that
    is, closed by the loop rather than seeded as walls. */
module SearchInvariant {
  import opened GridModel
  import opened Neighbourhood
  import opened OpenList
  import opened PathReconstruction
  import opened AStarSearch

  /** Position, classification and h of every node are fixed for the run. */
  predicate NodesKeepIdentity(st: State, classify: Pos -> Cell, goal: Pos, dist: Distance) {
    forall p :: p in st.nodes ==>
      st.nodes[p].position == p && st.nodes[p].cell == classify(p) && st.nodes[p].h == dist(p, goal)
  }

  /** The open list has no duplicates, holds no expanded cell and no wall
      other than the start; before the first expansion it is the start alone,
      afterwards the start is expanded. */
  ghost predicate OpenInv(st: State, rank: map<Pos, nat>, classify: Pos -> Cell, start: Pos) {
    && NoDup(st.open)
    && (forall p :: p in st.open ==> p !in rank && (classify(p) == Closed ==> p == start))
    && (|rank.Keys| == 0 ==> st.open == [start])
    && (|rank.Keys| != 0 ==> start in rank)
  }

  /** Parents are expanded cells closed before their children, joined by a
      neighbour step, with g adding up; every discovered cell except the start
      has a parent, and walls and the start never get one. */
  ghost predicate ParentInv(st: State, rank: map<Pos, nat>, classify: Pos -> Cell, start: Pos, dist: Distance, rule: NeighbourRule) {
    && Ranked(st.nodes, rank)
    && CostsFollowParents(st.nodes, dist)
    && (forall p {:trigger st.nodes[p].parent} :: p in st.nodes && st.nodes[p].parent.Some? ==>
          Generated(rule, st.nodes[p].parent.value, p) && p != start && classify(p) != Closed)
    && (forall p {:trigger st.nodes[p].parent} :: p in st.nodes && (p in st.open || p in rank) && p != start ==> st.nodes[p].parent.Some?)
  }

  /** Discovered nodes satisfy f == g + h; the others are as built. */
  ghost predicate CostInv(st: State, rank: map<Pos, nat>) {
    forall p {:trigger st.nodes[p].parent} :: p in st.nodes ==>
      if p in st.open || p in rank then st.nodes[p].f == st.nodes[p].g + st.nodes[p].h
      else st.nodes[p].g == 0.0 && st.nodes[p].f == 0.0 && st.nodes[p].parent.None?
  }

  /** The closed set is the walls plus the expanded cells, and ranks count
      expansions. */
  ghost predicate ClosedInv(st: State, rank: map<Pos, nat>, dimension: nat, classify: Pos -> Cell) {
    && st.closed == WallCells(dimension, classify) + rank.Keys
    && rank.Keys <= Cells(dimension)
    && (forall q :: q in rank ==> rank[q] < |rank.Keys|)
  }

  ghost predicate Inv(st: State, rank: map<Pos, nat>, dimension: nat, classify: Pos -> Cell,
                      start: Pos, goal: Pos, dist: Distance, rule: NeighbourRule)
  {
    && WellShaped(st, dimension)
    && NodesKeepIdentity(st, classify, goal, dist)
    && ClosedInv(st, rank, dimension, classify)
    && OpenInv(st, rank, classify, start)
    && start in st.nodes && st.nodes[start].g == 0.0 && st.nodes[start].parent.None?
    && ParentInv(st, rank, classify, start, dist, rule)
    && CostInv(st, rank)
  }

  /** The seeded state satisfies the invariant with nothing expanded. */
  lemma InitEstablishesInv(dimension: nat, classify: Pos -> Cell, start: Pos, goal: Pos, dist: Distance, rule: NeighbourRule)
    requires Bound(dimension, start)
    ensures Inv(Init(dimension, classify, start, goal, dist), map[], dimension, classify, start, goal, dist, rule)
  {
    var st := Init(dimension, classify, start, goal, dist);
    assert st.closed == WallCells(dimension, classify);
    var empty: map<Pos, nat> := map[];
    assert empty.Keys == {};
  }

  // ---------------------------------------------------------------------
  // Relaxation

  /** The node a successful relaxation of `pos` from `current` writes. */
  function Relaxed(st: State, goal: Pos, dist: Distance, current: Pos, pos: Pos): (n: Node)
    requires current in st.nodes && pos in st.nodes
  {
    GetFCost(st.nodes[pos].(g := st.nodes[current].g + dist(current, pos), h := dist(pos, goal))).(parent := Some(current))
  }

  /** Relax either leaves the state alone or writes `Relaxed` and adds `pos`
      to the open list if it is new. */
  lemma RelaxCases(st: State, dimension: nat, goal: Pos, dist: Distance, current: Pos, pos: Pos)
    requires WellShaped(st, dimension) && current in st.nodes
    ensures var r := Relax(st, dimension, goal, dist, current, pos);
      || r == st
      || (&& pos in Cells(dimension) && pos !in st.closed
          && r == State(st.nodes[pos := Relaxed(st, goal, dist, current, pos)],
                        if pos in st.open then st.open else st.open + [pos], st.closed))
  {
  }

  lemma NoDupAppend(s: seq<Pos>, x: Pos)
    requires NoDup(s) && x !in s
    ensures NoDup(s + [x])
  {
  }

  lemma UpdateKeepsOpenInv(st: State, u: State, rank: map<Pos, nat>, classify: Pos -> Cell, start: Pos, pos: Pos)
    requires OpenInv(st, rank, classify, start)
    requires pos !in rank && classify(pos) != Closed && |rank.Keys| != 0
    requires u.open == (if pos in st.open then st.open else st.open + [pos])
    ensures OpenInv(u, rank, classify, start)
  {
    if pos !in st.open {
      NoDupAppend(st.open, pos);
    }
  }

  lemma UpdateKeepsParentInv(st: State, u: State, rank: map<Pos, nat>, classify: Pos -> Cell, start: Pos,
                             dist: Distance, rule: NeighbourRule, current: Pos, pos: Pos, n: Node)
    requires ParentInv(st, rank, classify, start, dist, rule)
    requires current in rank && current in st.nodes && pos in st.nodes && current != pos
    requires pos !in rank && pos != start && classify(pos) != Closed && pos in Neighbours(rule, current)
    requires n.parent == Some(current) && n.g == st.nodes[current].g + dist(current, pos)
    requires u.nodes == st.nodes[pos := n]
    requires forall p :: p in u.open ==> p in st.open || p == pos
    ensures ParentInv(u, rank, classify, start, dist, rule)
  {
    assert Ranked(u.nodes, rank);
    assert CostsFollowParents(u.nodes, dist) by {
      forall p | p in u.nodes && u.nodes[p].parent.Some?
        ensures u.nodes[p].parent.value in u.nodes
        ensures u.nodes[p].g == u.nodes[u.nodes[p].parent.value].g + dist(u.nodes[p].parent.value, p)
      {
        if p != pos {
          assert st.nodes[p].parent.value in rank;
        }
      }
    }
  }

  lemma UpdateKeepsCostInv(st: State, u: State, rank: map<Pos, nat>, pos: Pos, n: Node)
    requires CostInv(st, rank)
    requires pos in st.nodes && u.nodes == st.nodes[pos := n] && n.f == n.g + n.h
    requires pos in u.open && forall p :: p in st.open ==> p in u.open
    requires forall p :: p in u.open ==> p in st.open || p == pos
    ensures CostInv(u, rank)
  {
    forall p | p in u.nodes && p != pos
      ensures u.nodes[p].parent == st.nodes[p].parent
    {
    }
  }

  lemma UpdateKeepsIdentity(st: State, u: State, classify: Pos -> Cell, goal: Pos, dist: Distance, pos: Pos, n: Node)
    requires NodesKeepIdentity(st, classify, goal, dist)
    requires n.position == pos && n.cell == classify(pos) && n.h == dist(pos, goal)
    requires u.nodes == st.nodes[pos := n]
    ensures NodesKeepIdentity(u, classify, goal, dist)
  {
  }

  lemma UpdateKeepsShape(st: State, u: State, dimension: nat, current: Pos, pos: Pos, n: Node)
    requires WellShaped(st, dimension) && pos in st.nodes && current in st.nodes
    requires n.parent == Some(current) && u.nodes == st.nodes[pos := n] && u.closed == st.closed
    requires forall p :: p in u.open ==> p in st.open || p == pos
    ensures WellShaped(u, dimension)
  {
    assert u.nodes.Keys == st.nodes.Keys;
  }

  /** Writing `Relaxed` for a listed, unclosed neighbour of an expanded cell
      keeps the invariant. */
  lemma UpdatePreservesInv(st: State, rank: map<Pos, nat>, dimension: nat, classify: Pos -> Cell,
                           start: Pos, goal: Pos, dist: Distance, rule: NeighbourRule, current: Pos, pos: Pos, r: State)
    requires Inv(st, rank, dimension, classify, start, goal, dist, rule)
    requires current in rank && pos in Neighbours(rule, current)
    requires pos in Cells(dimension) && pos !in st.closed
    requires r == State(st.nodes[pos := Relaxed(st, goal, dist, current, pos)],
                        if pos in st.open then st.open else st.open + [pos], st.closed)
    ensures Inv(r, rank, dimension, classify, start, goal, dist, rule)
  {
    assert current in st.closed;
    assert pos !in rank && classify(pos) != Closed;
    assert |rank.Keys| != 0;
    assert pos != start && current != pos;
    var n := Relaxed(st, goal, dist, current, pos);
    UpdateKeepsOpenInv(st, r, rank, classify, start, pos);
    UpdateKeepsParentInv(st, r, rank, classify, start, dist, rule, current, pos, n);
    UpdateKeepsCostInv(st, r, rank, pos, n);
    UpdateKeepsIdentity(st, r, classify, goal, dist, pos, n);
    UpdateKeepsShape(st, r, dimension, current, pos, n);
    assert r.nodes[start] == st.nodes[start];
  }

  /** Relaxing a neighbour of an expanded cell keeps the invariant. */
  lemma RelaxPreservesInv(st: State, rank: map<Pos, nat>, dimension: nat, classify: Pos -> Cell,
                          start: Pos, goal: Pos, dist: Distance, rule: NeighbourRule, current: Pos, pos: Pos)
    requires Inv(st, rank, dimension, classify, start, goal, dist, rule)
    requires current in rank && pos in Neighbours(rule, current)
    ensures Inv(Relax(st, dimension, goal, dist, current, pos), rank, dimension, classify, start, goal, dist, rule)
  {
    var r := Relax(st, dimension, goal, dist, current, pos);
    RelaxCases(st, dimension, goal, dist, current, pos);
    if r != st {
      UpdatePreservesInv(st, rank, dimension, classify, start, goal, dist, rule, current, pos, r);
    }
  }

  lemma {:induction false} RelaxAllPreservesInv(st: State, rank: map<Pos, nat>, dimension: nat, classify: Pos -> Cell,
                             start: Pos, goal: Pos, dist: Distance, rule: NeighbourRule, current: Pos, ns: seq<Pos>)
    requires Inv(st, rank, dimension, classify, start, goal, dist, rule)
    requires current in rank && forall q :: q in ns ==> q in Neighbours(rule, current)
    ensures Inv(RelaxAll(st, dimension, goal, dist, current, ns), rank, dimension, classify, start, goal, dist, rule)
    decreases |ns|
  {
    if ns != [] {
      RelaxPreservesInv(st, rank, dimension, classify, start, goal, dist, rule, current, ns[0]);
      var next := Relax(st, dimension, goal, dist, current, ns[0]);
      RelaxAllPreservesInv(next, rank, dimension, classify, start, goal, dist, rule, current, ns[1..]);
    }
  }

  // ---------------------------------------------------------------------
  // Closing the extracted cell

  lemma RemovedKeepsOpenInv(st: State, m: State, rank: map<Pos, nat>, rank': map<Pos, nat>,
                            classify: Pos -> Cell, start: Pos, current: Pos)
    requires OpenInv(st, rank, classify, start) && current in st.open
    requires m.open == RemoveFirst(st.open, current)
    requires rank' == rank[current := |rank.Keys|]
    ensures OpenInv(m, rank', classify, start)
  {
    RemoveFirstMembers(st.open, current);
    assert current in rank';
    assert |rank'.Keys| != 0;
    if |rank.Keys| == 0 {
      assert current == start;
    } else {
      assert start in rank;
    }
    assert forall p :: p in m.open ==> p in st.open && p != current;
  }

  lemma RemovedKeepsRanked(nodes: map<Pos, Node>, rank: map<Pos, nat>, rank': map<Pos, nat>, current: Pos)
    requires Ranked(nodes, rank) && current !in rank
    requires forall q :: q in rank ==> rank[q] < |rank.Keys|
    requires rank' == rank[current := |rank.Keys|]
    ensures Ranked(nodes, rank')
  {
  }

  /** Moving `current` from the open list to the ranked cells leaves the set
      of discovered cells as it was. */
  lemma RemovedSameDiscovered(st: State, m: State, rank: map<Pos, nat>, rank': map<Pos, nat>, current: Pos)
    requires NoDup(st.open) && current in st.open
    requires m.open == RemoveFirst(st.open, current)
    requires rank' == rank[current := |rank.Keys|]
    ensures forall p :: p in m.open || p in rank' <==> p in st.open || p in rank
  {
    RemoveFirstMembers(st.open, current);
  }

  lemma RemovedKeepsParentInv(st: State, m: State, rank: map<Pos, nat>, rank': map<Pos, nat>,
                              classify: Pos -> Cell, start: Pos, dist: Distance, rule: NeighbourRule, current: Pos)
    requires ParentInv(st, rank, classify, start, dist, rule) && m.nodes == st.nodes
    requires current !in rank && forall q :: q in rank ==> rank[q] < |rank.Keys|
    requires rank' == rank[current := |rank.Keys|]
    requires forall p :: p in m.open || p in rank' <==> p in st.open || p in rank
    ensures ParentInv(m, rank', classify, start, dist, rule)
  {
    RemovedKeepsRanked(st.nodes, rank, rank', current);
  }

  lemma RemovedKeepsCostInv(st: State, m: State, rank: map<Pos, nat>, rank': map<Pos, nat>)
    requires CostInv(st, rank) && m.nodes == st.nodes
    requires forall p :: p in m.open || p in rank' <==> p in st.open || p in rank
    ensures CostInv(m, rank')
  {
    forall p | p in m.nodes
      ensures m.nodes[p].parent == st.nodes[p].parent
    {
    }
  }

  lemma RemovedKeepsClosedInv(st: State, m: State, rank: map<Pos, nat>, rank': map<Pos, nat>,
                              dimension: nat, classify: Pos -> Cell, current: Pos)
    requires ClosedInv(st, rank, dimension, classify)
    requires current in Cells(dimension) && current !in rank
    requires m.closed == st.closed + {current}
    requires rank' == rank[current := |rank.Keys|]
    ensures ClosedInv(m, rank', dimension, classify)
  {
    var walls := WallCells(dimension, classify);
    assert rank'.Keys == rank.Keys + {current};
    assert |rank'.Keys| == |rank.Keys| + 1;
    assert m.closed == walls + rank'.Keys by {
      assert st.closed == walls + rank.Keys;
    }
    forall q | q in rank'
      ensures rank'[q] < |rank'.Keys|
    {
      if q != current {
        assert q in rank;
      }
    }
  }

  lemma RemovedKeepsInv(st: State, rank: map<Pos, nat>, dimension: nat, classify: Pos -> Cell,
                        start: Pos, goal: Pos, dist: Distance, rule: NeighbourRule, current: Pos)
    requires Inv(st, rank, dimension, classify, start, goal, dist, rule)
    requires current in st.open
    ensures Inv(Removed(st, dimension, current), rank[current := |rank.Keys|], dimension, classify, start, goal, dist, rule)
  {
    var m := Removed(st, dimension, current);
    var rank' := rank[current := |rank.Keys|];
    assert current !in rank;
    RemovedSameDiscovered(st, m, rank, rank', current);
    RemovedKeepsOpenInv(st, m, rank, rank', classify, start, current);
    RemovedKeepsClosedInv(st, m, rank, rank', dimension, classify, current);
    RemovedKeepsParentInv(st, m, rank, rank', classify, start, dist, rule, current);
    RemovedKeepsCostInv(st, m, rank, rank');
  }

  /** An iteration keeps the invariant, with the extracted cell ranked next. */
  lemma ExpandPreservesInv(st: State, rank: map<Pos, nat>, dimension: nat, classify: Pos -> Cell,
                           start: Pos, goal: Pos, dist: Distance, rule: NeighbourRule, current: Pos)
    requires Inv(st, rank, dimension, classify, start, goal, dist, rule)
    requires current in st.open
    ensures Inv(Expand(st, dimension, goal, dist, rule, current), rank[current := |rank.Keys|],
                dimension, classify, start, goal, dist, rule)
  {
    var rank' := rank[current := |rank.Keys|];
    RemovedKeepsInv(st, rank, dimension, classify, start, goal, dist, rule, current);
    RelaxAllPreservesInv(Removed(st, dimension, current), rank', dimension, classify, start, goal, dist, rule,
                         current, Neighbours(rule, current));
  }

  // ---------------------------------------------------------------------
  // The frontier

  /** Every in-bounds non-wall cell the neighbour rule lists around an
      expanded cell has been discovered: it is on the open list or expanded
      itself. */
  ghost predicate Frontier(st: State, rank: map<Pos, nat>, dimension: nat, classify: Pos -> Cell, rule: NeighbourRule) {
    forall p, q :: p in rank && Generated(rule, p, q) && Bound(dimension, q) && classify(q) != Closed ==>
      q in st.open || q in rank
  }

  /** After the neighbour loop every listed in-bounds cell that was not
      closed is on the open list. */
  lemma {:induction false} RelaxAllCovers(st: State, dimension: nat, goal: Pos, dist: Distance, current: Pos, ns: seq<Pos>)
    requires WellShaped(st, dimension) && current in st.nodes
    ensures forall q :: q in ns && Bound(dimension, q) && q !in st.closed ==>
      q in RelaxAll(st, dimension, goal, dist, current, ns).open
    decreases |ns|
  {
    if ns != [] {
      var next := Relax(st, dimension, goal, dist, current, ns[0]);
      var r := RelaxAll(st, dimension, goal, dist, current, ns);
      assert r == RelaxAll(next, dimension, goal, dist, current, ns[1..]);
      RelaxAllCovers(next, dimension, goal, dist, current, ns[1..]);
      forall q | q in ns && Bound(dimension, q) && q !in st.closed
        ensures q in r.open
      {
        if q == ns[0] {
          assert q in next.open;
          var i :| 0 <= i < |next.open| && next.open[i] == q;
          assert r.open[..|next.open|][i] == q;
        } else {
          assert q in ns[1..];
        }
      }
    }
  }

  /** An iteration keeps every other open cell open and puts every listed
      in-bounds cell that was not closed on the open list. */
  lemma ExpandDiscovers(st: State, dimension: nat, goal: Pos, dist: Distance, rule: NeighbourRule, current: Pos)
    requires WellShaped(st, dimension) && NoDup(st.open) && current in st.open
    ensures var r := Expand(st, dimension, goal, dist, rule, current);
      && (forall p :: p in st.open && p != current ==> p in r.open)
      && (forall q :: Generated(rule, current, q) && Bound(dimension, q) && q !in st.closed && q != current ==> q in r.open)
  {
    var removed := Removed(st, dimension, current);
    ExpandMovesOne(st, dimension, goal, dist, rule, current);
    RelaxAllCovers(removed, dimension, goal, dist, current, Neighbours(rule, current));
  }

  /** An iteration keeps the frontier closed: the cells listed around the
      newly expanded cell are all discovered by its neighbour loop. */
  lemma ExpandKeepsFrontier(st: State, rank: map<Pos, nat>, dimension: nat, classify: Pos -> Cell,
                            goal: Pos, dist: Distance, rule: NeighbourRule, current: Pos)
    requires WellShaped(st, dimension) && NoDup(st.open) && current in st.open && current !in rank
    requires st.closed == WallCells(dimension, classify) + rank.Keys
    requires Frontier(st, rank, dimension, classify, rule)
    ensures Frontier(Expand(st, dimension, goal, dist, rule, current), rank[current := |rank.Keys|],
                     dimension, classify, rule)
  {
    var r := Expand(st, dimension, goal, dist, rule, current);
    var rank' := rank[current := |rank.Keys|];
    ExpandDiscovers(st, dimension, goal, dist, rule, current);
    forall p, q | p in rank' && Generated(rule, p, q) && Bound(dimension, q) && classify(q) != Closed
      ensures q in r.open || q in rank'
    {
      if q !in rank' {
        assert q !in st.closed by {
          assert q !in WallCells(dimension, classify);
        }
        if p != current {
          assert p in rank;
        }
      }
    }
  }
}

=== FILE: neighbours.dfy ===
/** The 8-neighbour generator of the path finder, as written and as evidently
    intended. */
module Neighbourhood {
  import opened GridModel

  /** The eight displacements, in the order the generator lists them. */
  const Difference: seq<Pos> :=
    [Pos(1, 0), Pos(1, 1), Pos(0, 1), Pos(-1, 1), Pos(-1, 0), Pos(-1, -1), Pos(0, -1), Pos(1, -1)]

  function Shift(p: Pos, d: Pos): Pos {
    Pos(d.x + p.x, d.y + p.y)
  }

  /** q is one of the eight cells around p. */
  predicate Adjacent(p: Pos, q: Pos) {
    p != q && -1 <= q.x - p.x <= 1 && -1 <= q.y - p.y <= 1
  }

  predicate NonNegative(p: Pos) {
    p.x >= 0 && p.y >= 0
  }

  /** The index in `Difference` of a unit displacement. */
  function DifferenceIndex(dx: int, dy: int): (i: nat)
    requires -1 <= dx <= 1 && -1 <= dy <= 1 && (dx, dy) != (0, 0)
    ensures i < |Difference| && Difference[i] == Pos(dx, dy)
  {
    if dx == 1 then (if dy == 0 then 0 else if dy == 1 then 1 else 7)
    else if dx == 0 then (if dy == 1 then 2 else 6)
    else (if dy == 1 then 3 else if dy == 0 then 4 else 5)
  }

  /** The displacements are exactly the steps to the eight adjacent cells. */
  lemma DifferenceIsAdjacency(p: Pos, q: Pos)
    ensures Adjacent(p, q) <==> exists d :: d in Difference && q == Shift(p, d)
  {
    if Adjacent(p, q) {
      var i := DifferenceIndex(q.x - p.x, q.y - p.y);
      assert q == Shift(p, Difference[i]);
    }
    if exists d :: d in Difference && q == Shift(p, d) {
      var d :| d in Difference && q == Shift(p, d);
      assert d == Difference[0] || d == Difference[1] || d == Difference[2] || d == Difference[3]
          || d == Difference[4] || d == Difference[5] || d == Difference[6] || d == Difference[7];
    }
  }

  /** One entry of the generator: the displaced position, or the origin
      when that has a negative coordinate. */
  function Displace(p: Pos, d: Pos): (c: Pos)
    ensures NonNegative(c)
    ensures d in Difference ==> Adjacent(p, c) || c == Origin
  {
    var c := Shift(p, d);
    DifferenceIsAdjacency(p, c);
    if c.x < 0 || c.y < 0 then Origin else c
  }

  /** ReturnNeighbours: always eight entries; an entry whose displaced
      position has a negative coordinate is replaced by the origin rather
      than dropped. The upper bound is not tested here. */
  function ReturnNeighbours(p: Pos): (r: seq<Pos>)
    ensures |r| == |Difference|
    ensures forall i :: 0 <= i < |r| ==>
      r[i] == (if NonNegative(Shift(p, Difference[i])) then Shift(p, Difference[i]) else Origin)
    ensures forall q :: q in r ==> NonNegative(q) && (Adjacent(p, q) || q == Origin)
  {
    seq(|Difference|, i requires 0 <= i < |Difference| => Displace(p, Difference[i]))
  }

  /** No adjacent cell with non-negative coordinates is missed. */
  lemma ReturnNeighboursComplete(p: Pos, q: Pos)
    requires Adjacent(p, q) && NonNegative(q)
    ensures q in ReturnNeighbours(p)
  {
    var i := DifferenceIndex(q.x - p.x, q.y - p.y);
    assert ReturnNeighbours(p)[i] == q;
  }

  /** The displaced positions of `ds` that have no negative coordinate, in order. */
  function KeepNonNegative(p: Pos, ds: seq<Pos>): (r: seq<Pos>)
    ensures forall q :: q in r <==> NonNegative(q) && exists d :: d in ds && q == Shift(p, d)
  {
    if ds == [] then []
    else
      var rest := KeepNonNegative(p, ds[1..]);
      assert forall d :: d in ds <==> d == ds[0] || d in ds[1..];
      var c := Shift(p, ds[0]);
      if NonNegative(c) then [c] + rest else rest
  }

  /** The generator with out-of-range displacements excluded instead of
      replaced by the origin. */
  function InRangeNeighbours(p: Pos): (r: seq<Pos>)
    ensures forall q :: q in r <==> Adjacent(p, q) && NonNegative(q)
  {
    var r := KeepNonNegative(p, Difference);
    assert forall q :: q in r <==> Adjacent(p, q) && NonNegative(q) by {
      forall q
        ensures q in r <==> Adjacent(p, q) && NonNegative(q)
      {
        DifferenceIsAdjacency(p, q);
      }
    }
    r
  }

  /** Which neighbour generator a search uses. */
  datatype NeighbourRule = AsWritten | Excluding

  /** The cells the generator lists around p, in closed form: the adjacent
      cells with no negative coordinate, and under the rule as written also
      the origin whenever some displacement of p leaves the non-negative
      quadrant, that is, when p lies in row or column 0 (or below). */
  predicate Generated(rule: NeighbourRule, p: Pos, q: Pos) {
    || (Adjacent(p, q) && NonNegative(q))
    || (rule == AsWritten && q == Origin && (p.x < 1 || p.y < 1))
  }

  /** ReturnNeighbours lists exactly the cells `Generated` describes. */
  lemma ReturnNeighboursMembers(p: Pos, q: Pos)
    ensures q in ReturnNeighbours(p) <==> Generated(AsWritten, p, q)
  {
    var r := ReturnNeighbours(p);
    forall i | 0 <= i < |r|
      ensures Generated(AsWritten, p, r[i])
    {
      DifferenceIsAdjacency(p, Shift(p, Difference[i]));
    }
    if Adjacent(p, q) && NonNegative(q) {
      ReturnNeighboursComplete(p, q);
    } else if q == Origin && p.x < 1 {
      assert r[4] == Origin;
    } else if q == Origin && p.y < 1 {
      assert r[6] == Origin;
    }
  }

  /** The neighbour list of p under `rule`. */
  function Neighbours(rule: NeighbourRule, p: Pos): (r: seq<Pos>)
    ensures forall q :: q in r <==> Generated(rule, p, q)
  {
    match rule
    case AsWritten =>
      assert forall q :: q in ReturnNeighbours(p) <==> Generated(AsWritten, p, q) by {
        forall q
          ensures q in ReturnNeighbours(p) <==> Generated(AsWritten, p, q)
        {
          ReturnNeighboursMembers(p, q);
        }
      }
      ReturnNeighbours(p)
    case Excluding => InRangeNeighbours(p)
  }
}

=== FILE: openlist.dfy ===
/** The open list of the search: minimum-f selection and removal. */
module OpenList {
  import opened GridModel

  predicate NoDup<T(==)>(s: seq<T>) {
    forall i, j :: 0 <= i < j < |s| ==> s[i] != s[j]
  }

  /** The f values of the listed nodes, in list order. */
  function FCosts(open: seq<Pos>, nodes: map<Pos, Node>): (fs: seq<real>)
    requires forall p :: p in open ==> p in nodes
    ensures |fs| == |open|
    ensures forall i :: 0 <= i < |open| ==> fs[i] == nodes[open[i]].f
  {
    seq(|open|, i requires 0 <= i < |open| => nodes[open[i]].f)
  }

  /** Index k holds a minimum of fs and every later entry is strictly larger:
      among equal minima, k is the last. */
  predicate IsLastMinimum(fs: seq<real>, k: int) {
    && 0 <= k < |fs|
    && (forall j :: 0 <= j < |fs| ==> fs[k] <= fs[j])
    && (forall j :: k < j < |fs| ==> fs[k] < fs[j])
  }

  /** At most one index is the last minimum. */
  lemma LastMinimumUnique(fs: seq<real>, k1: int, k2: int)
    requires IsLastMinimum(fs, k1) && IsLastMinimum(fs, k2)
    ensures k1 == k2
  {
    assert fs[k1] == fs[k2];
  }

  /** The selection rule as a left-to-right scan that moves to an entry whenever
      it is no larger than the current best. */
  function LowestIndex(fs: seq<real>): (k: nat)
    requires |fs| > 0
    ensures IsLastMinimum(fs, k)
  {
    if |fs| == 1 then 0
    else
      var k' := LowestIndex(fs[..|fs| - 1]);
      if fs[k'] >= fs[|fs| - 1] then |fs| - 1 else k'
  }

  /** GetLowestFCost: the position in a non-empty open list of the node with
      the smallest f, the last such node when several share it. */
  method GetLowestFCost(open: seq<Pos>, nodes: map<Pos, Node>) returns (k: nat)
    requires |open| > 0
    requires forall p :: p in open ==> p in nodes
    ensures k < |open|
    ensures forall j :: 0 <= j < |open| ==> nodes[open[k]].f <= nodes[open[j]].f
    ensures forall j :: k < j < |open| ==> nodes[open[k]].f < nodes[open[j]].f
    ensures k == LowestIndex(FCosts(open, nodes))
  {
    k := 0;
    var i := 0;
    while i < |open|
      invariant 0 <= i <= |open|
      invariant k < |open| && (k < i || k == 0)
      invariant forall j :: 0 <= j < i ==> nodes[open[k]].f <= nodes[open[j]].f
      invariant forall j :: k < j < i ==> nodes[open[k]].f < nodes[open[j]].f
    {
      if nodes[open[k]].f >= nodes[open[i]].f {
        k := i;
      }
      i := i + 1;
    }
    LastMinimumUnique(FCosts(open, nodes), k, LowestIndex(FCosts(open, nodes)));
  }

  /** List.Remove: drops the first occurrence of x, if any. */
  function RemoveFirst(s: seq<Pos>, x: Pos): (r: seq<Pos>)
    ensures multiset(r) == multiset(s) - multiset{x}
  {
    if s == [] then []
    else
      assert s == [s[0]] + s[1..];
      if s[0] == x then s[1..] else [s[0]] + RemoveFirst(s[1..], x)
  }

  /** Removal takes out the first occurrence of x and keeps the other entries
      in their order. */
  lemma {:induction false} RemoveFirstOrder(s: seq<Pos>, x: Pos, i: nat)
    requires i < |s| && s[i] == x && x !in s[..i]
    ensures RemoveFirst(s, x) == s[..i] + s[i + 1..]
  {
    if i > 0 {
      assert s[0] != x by { assert s[0] == s[..i][0]; }
      assert s[1..][..i - 1] == s[1..i];
      RemoveFirstOrder(s[1..], x, i - 1);
      assert s[..i] == [s[0]] + s[1..][..i - 1];
      assert s[i + 1..] == s[1..][i..];
    }
  }

  /** Removing an absent cell leaves the list as it is. */
  lemma {:induction false} RemoveFirstAbsent(s: seq<Pos>, x: Pos)
    requires x !in s
    ensures RemoveFirst(s, x) == s
  {
    if s != [] {
      assert x !in s[1..];
      RemoveFirstAbsent(s[1..], x);
    }
  }

  /** On a list without duplicates, removal keeps it duplicate-free and leaves
      exactly the other members. */
  lemma {:induction false} RemoveFirstMembers(s: seq<Pos>, x: Pos)
    requires NoDup(s)
    ensures NoDup(RemoveFirst(s, x))
    ensures forall y :: y in RemoveFirst(s, x) <==> y in s && y != x
  {
    if s != [] && s[0] != x {
      RemoveFirstMembers(s[1..], x);
      var rest := RemoveFirst(s[1..], x);
      assert RemoveFirst(s, x) == [s[0]] + rest;
      assert s[0] !in rest;
    }
  }
}

=== FILE: origin.dfy ===
/** The origin substitution of the neighbour generator. As written, a cell in
    row or column 0 lists (0,0) among its neighbours however far from it it
    lies, so an expansion there can make (0,0) its child and a reconstructed
    path can jump across the grid. The corrected generator drops displaced
    positions with a negative coordinate instead. */
module OriginSubstitution {
  import opened GridModel
  import opened Neighbourhood
  import opened OpenList
  import opened AStarSearch

  /** A cell in column 0, five rows from the origin. */
  const Far: Pos := Pos(0, 5)

  /** As written: (0,0) is listed around (0,5) although the two are not adjacent. */
  lemma OriginListedFarAway()
    ensures Origin in Neighbours(AsWritten, Far)
    ensures !Adjacent(Far, Origin)
  {
    assert Generated(AsWritten, Far, Origin);
  }

  /** As written: expanding (0,5) while (0,0) is undiscovered makes (0,5)
      the parent of (0,0). An open (0,5) means the grid is at least 6 x 6. */
  lemma AsWrittenAdoptsOrigin(st: State, dimension: nat, goal: Pos, dist: Distance)
    requires WellShaped(st, dimension) && Far in st.open
    requires Origin !in st.closed && Origin !in st.open
    ensures Expand(st, dimension, goal, dist, AsWritten, Far).nodes[Origin].parent == Some(Far)
    ensures !Adjacent(Far, Origin)
  {
    var removed := Removed(st, dimension, Far);
    assert multiset(removed.open)[Origin] == 0;
    OriginListedFarAway();
    RelaxAllAdopts(removed, dimension, goal, dist, Far, Neighbours(AsWritten, Far), Origin);
  }

  /** Corrected: (0,0) is not listed around (0,5), and expanding (0,5)
      leaves the node of (0,0) as it was. */
  lemma ExcludingLeavesOrigin(st: State, dimension: nat, goal: Pos, dist: Distance)
    requires WellShaped(st, dimension) && Far in st.open
    ensures Origin !in Neighbours(Excluding, Far)
    ensures Origin in st.nodes ==> Expand(st, dimension, goal, dist, Excluding, Far).nodes[Origin] == st.nodes[Origin]
  {
    assert !Generated(Excluding, Far, Origin);
    if Origin in st.nodes {
      RelaxAllFrame(Removed(st, dimension, Far), dimension, goal, dist, Far, Neighbours(Excluding, Far), Origin);
    }
  }
}

=== FILE: pathfind.dfy ===
/** The search entry point: PathFind and PicturePathFind run the same loop
    over a freshly built grid. */
module PathFinder {
  import opened GridModel
  import opened Neighbourhood
  import opened OpenList
  import opened PathReconstruction
  import opened AStarSearch
  import opened SearchInvariant

  /** A found path: the parent chain from the goal to the start, no cell
      twice, every cell in the grid, no wall except possibly the start, each
      step one the neighbour rule generates, and the goal's g equals the
      summed edge cost. */
  ghost predicate IsRoute(path: seq<Pos>, st: State, dimension: nat, classify: Pos -> Cell,
                          start: Pos, goal: Pos, dist: Distance, rule: NeighbourRule)
  {
    && ParentChain(st.nodes, path)
    && path[0] == goal && path[|path| - 1] == start
    && (forall i, j :: 0 <= i < j < |path| ==> path[i] != path[j])
    && (forall i :: 0 <= i < |path| ==> Bound(dimension, path[i]))
    && (forall i :: 0 <= i < |path| - 1 ==> classify(path[i]) != Closed)
    && (forall i, j :: 0 <= i < j < |path| && j == i + 1 ==> Generated(rule, path[j], path[i]))
    && st.nodes[goal].g == PathCost(path, dist)
  }

  /** What holds of the final state whatever the outcome: walls were closed
      from the start and never touched, the open list has no duplicates and
      meets the closed set at most in a walled start, the start keeps g = 0
      and no parent. */
  ghost predicate Settled(st: State, dimension: nat, classify: Pos -> Cell, start: Pos) {
    && st.nodes.Keys == Cells(dimension)
    && (forall p :: Bound(dimension, p) && classify(p) == Closed ==> p in st.closed)
    && (forall p :: Bound(dimension, p) && classify(p) == Closed && p != start ==>
          p !in st.open && st.nodes[p].g == 0.0 && st.nodes[p].parent.None?)
    && NoDup(st.open)
    && (forall p :: p in st.open && p in st.closed ==> p == start && classify(start) == Closed)
    && start in st.nodes && st.nodes[start].g == 0.0 && st.nodes[start].parent.None?
  }

  lemma InvSettled(st: State, rank: map<Pos, nat>, dimension: nat, classify: Pos -> Cell,
                   start: Pos, goal: Pos, dist: Distance, rule: NeighbourRule)
    requires Inv(st, rank, dimension, classify, start, goal, dist, rule)
    ensures Settled(st, dimension, classify, start)
  {
  }

  /** Each step of a parent chain is a neighbour step into a non-wall cell. */
  lemma ChainSteps(st: State, rank: map<Pos, nat>, classify: Pos -> Cell, start: Pos, dist: Distance,
                   rule: NeighbourRule, path: seq<Pos>)
    requires ParentInv(st, rank, classify, start, dist, rule) && ParentChain(st.nodes, path)
    ensures forall i :: 0 <= i < |path| - 1 ==> classify(path[i]) != Closed
    ensures forall i, j :: 0 <= i < j < |path| && j == i + 1 ==> Generated(rule, path[j], path[i])
  {
    forall i, j | 0 <= i < j < |path| && j == i + 1
      ensures classify(path[i]) != Closed && Generated(rule, path[j], path[i])
    {
      assert st.nodes[path[i]].parent == Some(path[j]);
    }
    forall i | 0 <= i < |path| - 1
      ensures classify(path[i]) != Closed
    {
      assert st.nodes[path[i]].parent == Some(path[i + 1]);
    }
  }

  /** A parent chain from an open cell that ends at a parentless node ends at
      the start. */
  lemma ChainEndsAtStart(st: State, rank: map<Pos, nat>, classify: Pos -> Cell, start: Pos, dist: Distance,
                         rule: NeighbourRule, path: seq<Pos>)
    requires ParentInv(st, rank, classify, start, dist, rule) && ParentChain(st.nodes, path)
    requires path[0] in st.open && forall i :: 1 <= i < |path| ==> path[i] in rank
    requires st.nodes[path[|path| - 1]].parent.None?
    ensures path[|path| - 1] == start
  {
    var last := path[|path| - 1];
    assert last in st.open || last in rank;
  }

  /** Reconstruction from the extracted goal ends at the start, visits no
      cell twice and stays inside the grid. */
  lemma FoundPathShape(st: State, rank: map<Pos, nat>, dimension: nat, classify: Pos -> Cell,
                       start: Pos, goal: Pos, dist: Distance, rule: NeighbourRule)
    requires Inv(st, rank, dimension, classify, start, goal, dist, rule)
    requires goal in st.open
    ensures var path := ReconstructPath(st.nodes, goal);
      && path[|path| - 1] == start
      && (forall i, j :: 0 <= i < j < |path| ==> path[i] != path[j])
      && (forall i :: 0 <= i < |path| ==> Bound(dimension, path[i]))
  {
    var path := ReconstructPath(st.nodes, goal);
    SubsetCardinality(rank.Keys, Cells(dimension));
    ReconstructPathEndsAtRoot(st.nodes, rank, goal);
    ChainEndsAtStart(st, rank, classify, start, dist, rule, path);
    RankedChainDistinct(st.nodes, rank, path);
    assert forall i :: 0 <= i < |path| ==> Bound(dimension, path[i]);
  }

  /** Reconstruction from the extracted goal yields a route. */
  lemma FoundIsRoute(st: State, rank: map<Pos, nat>, dimension: nat, classify: Pos -> Cell,
                     start: Pos, goal: Pos, dist: Distance, rule: NeighbourRule)
    requires Inv(st, rank, dimension, classify, start, goal, dist, rule)
    requires goal in st.open
    ensures IsRoute(ReconstructPath(st.nodes, goal), st, dimension, classify, start, goal, dist, rule)
  {
    var path := ReconstructPath(st.nodes, goal);
    FoundPathShape(st, rank, dimension, classify, start, goal, dist, rule);
    PathCostIsG(st.nodes, path, dist);
    ChainSteps(st, rank, classify, start, dist, rule, path);
  }

  /** One unfolding of `Run` on a non-empty open list. */
  lemma RunUnfolds(st: State, dimension: nat, goal: Pos, dist: Distance, rule: NeighbourRule, fuel: nat, k: nat)
    requires WellShaped(st, dimension) && fuel > 0 && |st.open| > 0
    requires k == LowestIndex(FCosts(st.open, st.nodes))
    ensures st.open[k] == goal ==> Run(st, dimension, goal, dist, rule, fuel) == Found(ReconstructPath(st.nodes, goal))
    ensures st.open[k] != goal ==>
      Run(st, dimension, goal, dist, rule, fuel) ==
      Run(Expand(st, dimension, goal, dist, rule, st.open[k]), dimension, goal, dist, rule, fuel - 1)
  {
    assert Run(st, dimension, goal, dist, rule, fuel) == Iterate(st, dimension, goal, dist, rule, fuel);
    if st.open[k] != goal {
      assert Iterate(st, dimension, goal, dist, rule, fuel) == Proceed(st, dimension, goal, dist, rule, st.open[k], fuel);
    }
  }

  /** `Run` on an empty open list reports failure. */
  lemma RunStops(st: State, dimension: nat, goal: Pos, dist: Distance, rule: NeighbourRule, fuel: nat)
    requires WellShaped(st, dimension) && st.open == []
    ensures Run(st, dimension, goal, dist, rule, fuel) == NotFound
  {
  }

  /** A found route under the corrected neighbour rule moves between adjacent cells. */
  lemma ExcludingRouteIsContiguous(path: seq<Pos>, st: State, dimension: nat, classify: Pos -> Cell,
                                   start: Pos, goal: Pos, dist: Distance)
    requires IsRoute(path, st, dimension, classify, start, goal, dist, Excluding)
    ensures Contiguous(path)
  {
    forall i, j | 0 <= i < j < |path| && j == i + 1
      ensures Adjacent(path[j], path[i])
    {
      assert Generated(Excluding, path[j], path[i]);
    }
  }

  /** `path` starts anywhere and then moves through in-bounds non-wall
      cells, each step one the neighbour rule generates. */
  ghost predicate IsPassage(path: seq<Pos>, dimension: nat, classify: Pos -> Cell, rule: NeighbourRule) {
    && |path| >= 1
    && (forall i :: 1 <= i < |path| ==> Bound(dimension, path[i]) && classify(path[i]) != Closed)
    && (forall i, j :: 0 <= i < j < |path| && j == i + 1 ==> Generated(rule, path[i], path[j]))
  }

  /** No passage leads from the start to the goal. */
  ghost predicate Unreachable(dimension: nat, classify: Pos -> Cell, start: Pos, goal: Pos, rule: NeighbourRule) {
    forall path :: IsPassage(path, dimension, classify, rule) && path[0] == start ==> path[|path| - 1] != goal
  }

  /** With the open list empty and the frontier closed, a passage from an
      expanded cell stays among the expanded cells. */
  lemma {:induction false} PassageStaysExpanded(st: State, rank: map<Pos, nat>, dimension: nat, classify: Pos -> Cell,
                                                rule: NeighbourRule, path: seq<Pos>)
    requires Frontier(st, rank, dimension, classify, rule) && st.open == []
    requires IsPassage(path, dimension, classify, rule) && path[0] in rank
    ensures path[|path| - 1] in rank
    decreases |path|
  {
    if |path| > 1 {
      assert Generated(rule, path[0], path[1]);
      var rest := path[1..];
      forall i, j | 0 <= i < j < |rest| && j == i + 1
        ensures Generated(rule, rest[i], rest[j])
      {
        assert Generated(rule, path[i + 1], path[j + 1]);
      }
      PassageStaysExpanded(st, rank, dimension, classify, rule, rest);
    }
  }

  /** Consecutive cells of `path` are adjacent. */
  ghost predicate Contiguous(path: seq<Pos>) {
    forall i, j :: 0 <= i < j < |path| && j == i + 1 ==> Adjacent(path[j], path[i])
  }

  /** What a finished search reports: at most one expansion per cell (and,
      when the goal is found, one loop pass per cell counting the pass that
      extracts it), the final state `Settled`, a found path a route (between adjacent cells
      under the corrected rule), and an unsuccessful search ending with an
      empty open list, a non-wall goal never closed and no passage from the
      start to the goal. */
  ghost predicate Reported(outcome: Outcome, final: State, iterations: nat, dimension: nat, classify: Pos -> Cell,
                           start: Pos, goal: Pos, dist: Distance, rule: NeighbourRule)
  {
    && iterations <= dimension * dimension
    && (outcome.Found? ==> iterations < dimension * dimension)
    && Settled(final, dimension, classify, start)
    && (outcome.Found? ==> IsRoute(outcome.path, final, dimension, classify, start, goal, dist, rule))
    && (outcome.Found? && rule == Excluding ==> Contiguous(outcome.path))
    && (outcome.NotFound? ==>
          && final.open == []
          && (classify(goal) != Closed ==> goal !in final.closed)
          && Unreachable(dimension, classify, start, goal, rule))
  }

  /** The report when the goal is extracted. */
  lemma FoundFacts(st: State, rank: map<Pos, nat>, fuel: nat, dimension: nat, classify: Pos -> Cell,
                   start: Pos, goal: Pos, dist: Distance, rule: NeighbourRule)
    requires LoopInv(st, rank, fuel, dimension, classify, start, goal, dist, rule)
    requires goal in st.open
    ensures Reported(Found(ReconstructPath(st.nodes, goal)), st, |rank.Keys|, dimension, classify, start, goal, dist, rule)
  {
    FoundIsRoute(st, rank, dimension, classify, start, goal, dist, rule);
    InvSettled(st, rank, dimension, classify, start, goal, dist, rule);
    assert goal in Cells(dimension) && goal !in rank;
    assert rank.Keys <= Cells(dimension) - {goal};
    SubsetCardinality(rank.Keys, Cells(dimension) - {goal});
    RemoveOneCount(Cells(dimension), goal);
    CellsCount(dimension);
    if rule == Excluding {
      ExcludingRouteIsContiguous(ReconstructPath(st.nodes, goal), st, dimension, classify, start, goal, dist);
    }
  }

  /** The report when the open list runs dry before the goal is expanded. */
  lemma NotFoundFacts(st: State, rank: map<Pos, nat>, fuel: nat, dimension: nat, classify: Pos -> Cell,
                      start: Pos, goal: Pos, dist: Distance, rule: NeighbourRule)
    requires LoopInv(st, rank, fuel, dimension, classify, start, goal, dist, rule)
    requires st.open == []
    ensures Reported(NotFound, st, |rank.Keys|, dimension, classify, start, goal, dist, rule)
  {
    InvSettled(st, rank, dimension, classify, start, goal, dist, rule);
    SubsetCardinality(rank.Keys, Cells(dimension));
    CellsCount(dimension);
    assert start in rank;
    forall path | IsPassage(path, dimension, classify, rule) && path[0] == start
      ensures path[|path| - 1] != goal
    {
      PassageStaysExpanded(st, rank, dimension, classify, rule, path);
    }
  }

  /** What the search loop keeps: the search invariant and a closed
      frontier with the goal not yet expanded, and one unit of fuel per
      unexpanded cell plus one. */
  ghost predicate LoopInv(st: State, rank: map<Pos, nat>, fuel: nat, dimension: nat, classify: Pos -> Cell,
                          start: Pos, goal: Pos, dist: Distance, rule: NeighbourRule)
  {
    && Inv(st, rank, dimension, classify, start, goal, dist, rule)
    && Frontier(st, rank, dimension, classify, rule)
    && goal !in rank
    && fuel == |Cells(dimension) - rank.Keys| + 1
  }

  /** The fresh grid satisfies the loop invariant with nothing expanded. */
  lemma LoopStarts(dimension: nat, classify: Pos -> Cell, start: Pos, goal: Pos, dist: Distance, rule: NeighbourRule)
    requires Bound(dimension, start)
    ensures LoopInv(Init(dimension, classify, start, goal, dist), map[], |Cells(dimension)| + 1,
                    dimension, classify, start, goal, dist, rule)
  {
    var empty: map<Pos, nat> := map[];
    InitEstablishesInv(dimension, classify, start, goal, dist, rule);
    assert Cells(dimension) - empty.Keys == Cells(dimension);
  }

  /** One iteration that does not extract the goal keeps the loop invariant,
      expands one more cell and spends one unit of fuel. */
  lemma LoopStep(st: State, rank: map<Pos, nat>, fuel: nat, dimension: nat, classify: Pos -> Cell,
                 start: Pos, goal: Pos, dist: Distance, rule: NeighbourRule, k: nat)
    requires LoopInv(st, rank, fuel, dimension, classify, start, goal, dist, rule)
    requires |st.open| > 0 && k == LowestIndex(FCosts(st.open, st.nodes)) && st.open[k] != goal
    ensures var current := st.open[k];
      var rank' := rank[current := |rank.Keys|];
      && LoopInv(Expand(st, dimension, goal, dist, rule, current), rank', fuel - 1,
                 dimension, classify, start, goal, dist, rule)
      && |rank'.Keys| == |rank.Keys| + 1
      && |Cells(dimension) - rank'.Keys| < |Cells(dimension) - rank.Keys|
      && Run(Expand(st, dimension, goal, dist, rule, current), dimension, goal, dist, rule, fuel - 1) ==
         Run(st, dimension, goal, dist, rule, fuel)
  {
    var current := st.open[k];
    assert current in Cells(dimension) && current !in rank;
    KeysGrow(rank, Cells(dimension), current, |rank.Keys|);
    ExpandPreservesInv(st, rank, dimension, classify, start, goal, dist, rule, current);
    ExpandKeepsFrontier(st, rank, dimension, classify, goal, dist, rule, current);
    RunUnfolds(st, dimension, goal, dist, rule, fuel, k);
  }

  /** One pass of the loop body on a non-empty open list: extract the node
      of least f and either recognise the goal, leaving the state as it is,
      or expand the node. Either way the rest of the search is unchanged. */
  method Step(st: State, ghost rank: map<Pos, nat>, ghost fuel: nat, dimension: nat,
              classify: Pos -> Cell, start: Pos, goal: Pos, dist: Distance, rule: NeighbourRule)
    returns (found: bool, next: State, ghost rank': map<Pos, nat>, ghost fuel': nat)
    requires LoopInv(st, rank, fuel, dimension, classify, start, goal, dist, rule) && |st.open| > 0
    ensures var current := st.open[LowestIndex(FCosts(st.open, st.nodes))];
      && (found <==> current == goal)
      && (!found ==> next == Expand(st, dimension, goal, dist, rule, current))
    ensures LoopInv(next, rank', fuel', dimension, classify, start, goal, dist, rule)
    ensures Run(next, dimension, goal, dist, rule, fuel') == Run(st, dimension, goal, dist, rule, fuel)
    ensures found ==>
      && next == st && rank' == rank && goal in st.open
      && Run(st, dimension, goal, dist, rule, fuel) == Found(ReconstructPath(st.nodes, goal))
    ensures !found ==> |rank'.Keys| == |rank.Keys| + 1 && |Cells(dimension) - rank'.Keys| < |Cells(dimension) - rank.Keys|
  {
    var k := GetLowestFCost(st.open, st.nodes);
    var current := st.open[k];
    if current == goal {
      RunUnfolds(st, dimension, goal, dist, rule, fuel, k);
      return true, st, rank, fuel;
    }
    next := Expand(st, dimension, goal, dist, rule, current);
    LoopStep(st, rank, fuel, dimension, classify, start, goal, dist, rule, k);
    found, rank', fuel' := false, rank[current := |rank.Keys|], fuel - 1;
  }

  /** The result once the loop has stopped: the reconstructed path if the
      goal was extracted, failure if the open list ran dry. */
  method Finish(st: State, ghost rank: map<Pos, nat>, ghost fuel: nat, found: bool, iterations: nat, dimension: nat,
                classify: Pos -> Cell, start: Pos, goal: Pos, dist: Distance, rule: NeighbourRule)
    returns (outcome: Outcome)
    requires LoopInv(st, rank, fuel, dimension, classify, start, goal, dist, rule) && iterations == |rank.Keys|
    requires found ==> goal in st.open && Run(st, dimension, goal, dist, rule, fuel) == Found(ReconstructPath(st.nodes, goal))
    requires !found ==> st.open == []
    ensures outcome == Run(st, dimension, goal, dist, rule, fuel)
    ensures Reported(outcome, st, iterations, dimension, classify, start, goal, dist, rule)
  {
    if found {
      outcome := Found(ReconstructPath(st.nodes, goal));
      FoundFacts(st, rank, fuel, dimension, classify, start, goal, dist, rule);
    } else {
      outcome := NotFound;
      RunStops(st, dimension, goal, dist, rule, fuel);
      NotFoundFacts(st, rank, fuel, dimension, classify, start, goal, dist, rule);
    }
  }

  /** The rest of the search from `st` has the outcome of the search from
      `init`, and once the goal has been extracted that outcome is its
      reconstructed path. */
  ghost predicate SameOutcome(st: State, fuel: nat, found: bool, init: State, fuel0: nat,
                              dimension: nat, goal: Pos, dist: Distance, rule: NeighbourRule)
  {
    && WellShaped(st, dimension) && WellShaped(init, dimension)
    && Run(st, dimension, goal, dist, rule, fuel) == Run(init, dimension, goal, dist, rule, fuel0)
    && (found ==> goal in st.open && Run(st, dimension, goal, dist, rule, fuel) == Found(ReconstructPath(st.nodes, goal)))
  }

  /** The search loop: run passes while the goal has not been extracted and
      the open list is not empty. It stops either having extracted the goal or
      with the open list empty, after one counted pass per expanded cell, and
      the outcome of the rest of the search is that of the whole loop. */
  method RunLoop(init: State, ghost rank0: map<Pos, nat>, ghost fuel0: nat, dimension: nat, classify: Pos -> Cell,
                 start: Pos, goal: Pos, dist: Distance, rule: NeighbourRule)
    returns (found: bool, st: State, ghost rank: map<Pos, nat>, ghost fuel: nat, iterations: nat)
    requires LoopInv(init, rank0, fuel0, dimension, classify, start, goal, dist, rule) && rank0 == map[]
    ensures LoopInv(st, rank, fuel, dimension, classify, start, goal, dist, rule) && iterations == |rank.Keys|
    ensures Run(st, dimension, goal, dist, rule, fuel) == Run(init, dimension, goal, dist, rule, fuel0)
    ensures found ==> goal in st.open && Run(st, dimension, goal, dist, rule, fuel) == Found(ReconstructPath(st.nodes, goal))
    ensures !found ==> st.open == []
  {
    st, rank, fuel := init, rank0, fuel0;
    found := false;
    iterations := 0;
    while !found && |st.open| > 0
      invariant LoopInv(st, rank, fuel, dimension, classify, start, goal, dist, rule)
      invariant iterations == |rank.Keys|
      invariant SameOutcome(st, fuel, found, init, fuel0, dimension, goal, dist, rule)
      decreases |Cells(dimension) - rank.Keys|, if found then 0 else 1
    {
      found, st, rank, fuel := Step(st, rank, fuel, dimension, classify, start, goal, dist, rule);
      if !found {
        iterations := iterations + 1;
      }
    }
  }

  /** PathFind / PicturePathFind: build the grid, seed it and run the search
      loop while the open list is not empty. Each iteration extracts the node
      of least f, stops with the reconstructed path if it is the goal, and
      otherwise closes it and relaxes its neighbours. A start outside the grid
      fails at the lookup. Returns the outcome, the final state and the number
      of expanded cells. */
  method PathFind(dimension: nat, classify: Pos -> Cell, start: Pos, goal: Pos, dist: Distance, rule: NeighbourRule)
    returns (outcome: Outcome, final: State, iterations: nat)
    ensures outcome == Search(dimension, classify, start, goal, dist, rule)
    ensures outcome.StartOutOfRange? <==> !Bound(dimension, start)
    ensures Bound(dimension, start) ==> Reported(outcome, final, iterations, dimension, classify, start, goal, dist, rule)
  {
    if !Bound(dimension, start) {
      return StartOutOfRange, State(map[], [], {}), 0;
    }
    var init := Init(dimension, classify, start, goal, dist);
    LoopStarts(dimension, classify, start, goal, dist, rule);
    var found;
    ghost var rank, fuel;
    found, final, rank, fuel, iterations := RunLoop(init, map[], |Cells(dimension)| + 1, dimension, classify, start, goal, dist, rule);
    outcome := Finish(final, rank, fuel, found, iterations, dimension, classify, start, goal, dist, rule);
  }
}

=== FILE: reconstruct.dfy ===
/** Path reconstruction: the walk along parent links from the goal back to
    the node that has no parent. */
module PathReconstruction {
  import opened GridModel

  /** Every parent link points at a node of the grid. */
  predicate ParentsInside(nodes: map<Pos, Node>) {
    forall p {:trigger nodes[p].parent} :: p in nodes && nodes[p].parent.Some? ==> nodes[p].parent.value in nodes
  }

  /** Consecutive entries of `path` are child and parent. */
  ghost predicate ParentChain(nodes: map<Pos, Node>, path: seq<Pos>) {
    && |path| >= 1
    && (forall i :: 0 <= i < |path| ==> path[i] in nodes)
    && (forall i, j :: 0 <= i < j < |path| && j == i + 1 ==> nodes[path[i]].parent == Some(path[j]))
  }

  /** Follows parent links from p for at most `fuel` steps. */
  function Walk(nodes: map<Pos, Node>, p: Pos, fuel: nat): (path: seq<Pos>)
    requires p in nodes && ParentsInside(nodes)
    ensures ParentChain(nodes, path) && path[0] == p
    ensures |path| <= fuel + 1
    ensures nodes[path[|path| - 1]].parent.None? || |path| == fuel + 1
    decreases fuel
  {
    match nodes[p].parent
    case None => [p]
    case Some(q) =>
      if fuel == 0 then [p]
      else
        var rest := Walk(nodes, q, fuel - 1);
        assert forall i :: 1 <= i < |rest| + 1 ==> ([p] + rest)[i] == rest[i - 1];
        [p] + rest
  }

  /** ReconstructPath: the chain of parents from the goal, goal first. The
      bound on the number of steps is one more than the number of nodes; the
      search establishes that it is never reached (`ReconstructPathEndsAtRoot`). */
  function ReconstructPath(nodes: map<Pos, Node>, goal: Pos): (path: seq<Pos>)
    requires goal in nodes && ParentsInside(nodes)
    ensures ParentChain(nodes, path) && path[0] == goal
  {
    Walk(nodes, goal, |nodes| + 1)
  }

  /** Parent links descend in `rank` (the order in which nodes were closed)
      and always point at a ranked node. */
  ghost predicate Ranked(nodes: map<Pos, Node>, rank: map<Pos, nat>) {
    forall p {:trigger nodes[p].parent} :: p in nodes && nodes[p].parent.Some? ==>
      && nodes[p].parent.value in rank
      && (p in rank ==> rank[nodes[p].parent.value] < rank[p])
  }

  /** From a ranked node, a walk with more fuel than its rank reaches a node
      without a parent, passing only through ranked nodes. */
  lemma {:induction false} WalkReachesRoot(nodes: map<Pos, Node>, rank: map<Pos, nat>, p: Pos, fuel: nat)
    requires p in nodes && ParentsInside(nodes) && Ranked(nodes, rank)
    requires p in rank && rank[p] < fuel
    ensures nodes[Walk(nodes, p, fuel)[|Walk(nodes, p, fuel)| - 1]].parent.None?
    ensures forall i :: 0 <= i < |Walk(nodes, p, fuel)| ==> Walk(nodes, p, fuel)[i] in rank
    decreases fuel
  {
    match nodes[p].parent
    case None =>
    case Some(q) =>
      WalkReachesRoot(nodes, rank, q, fuel - 1);
      var rest := Walk(nodes, q, fuel - 1);
      assert Walk(nodes, p, fuel) == [p] + rest;
  }

  /** When every rank is below the number of nodes, reconstruction from any
      node ends at a node without a parent, and every node after the first
      is ranked. */
  lemma ReconstructPathEndsAtRoot(nodes: map<Pos, Node>, rank: map<Pos, nat>, goal: Pos)
    requires goal in nodes && ParentsInside(nodes) && Ranked(nodes, rank)
    requires forall q :: q in rank ==> rank[q] < |nodes|
    ensures var path := ReconstructPath(nodes, goal);
      nodes[path[|path| - 1]].parent.None? && forall i :: 1 <= i < |path| ==> path[i] in rank
  {
    var path := ReconstructPath(nodes, goal);
    match nodes[goal].parent
    case None =>
    case Some(q) =>
      WalkReachesRoot(nodes, rank, q, |nodes|);
      assert path == [goal] + Walk(nodes, q, |nodes|);
  }

  /** The summed edge cost along a path listed goal first: each step is
      charged from parent to child. */
  function PathCost(path: seq<Pos>, dist: (Pos, Pos) -> real): real {
    if |path| <= 1 then 0.0 else dist(path[1], path[0]) + PathCost(path[1..], dist)
  }

  /** Each node's g is its parent's g plus the edge cost from the parent. */
  predicate CostsFollowParents(nodes: map<Pos, Node>, dist: (Pos, Pos) -> real) {
    forall p {:trigger nodes[p].parent} :: p in nodes && nodes[p].parent.Some? ==>
      && nodes[p].parent.value in nodes
      && nodes[p].g == nodes[nodes[p].parent.value].g + dist(nodes[p].parent.value, p)
  }

  /** Along a parent chain, g at the head is g at the tail plus the path cost. */
  lemma {:induction false} PathCostIsG(nodes: map<Pos, Node>, path: seq<Pos>, dist: (Pos, Pos) -> real)
    requires ParentChain(nodes, path) && CostsFollowParents(nodes, dist)
    ensures nodes[path[0]].g == nodes[path[|path| - 1]].g + PathCost(path, dist)
  {
    if |path| > 1 {
      assert ParentChain(nodes, path[1..]);
      PathCostIsG(nodes, path[1..], dist);
      assert nodes[path[0]].parent == Some(path[1]);
    }
  }

  /** A parent chain through ranked nodes visits no cell twice. */
  lemma {:induction false} RankedChainDistinct(nodes: map<Pos, Node>, rank: map<Pos, nat>, path: seq<Pos>)
    requires ParentChain(nodes, path) && Ranked(nodes, rank)
    requires forall i :: 1 <= i < |path| ==> path[i] in rank
    ensures forall i, j :: 0 <= i < j < |path| ==> path[i] != path[j]
  {
    if |path| > 1 {
      assert ParentChain(nodes, path[1..]);
      RankedChainDistinct(nodes, rank, path[1..]);
      assert forall j :: 1 <= j < |path| ==> rank[path[j]] <= rank[path[1]] by {
        RanksDescend(nodes, rank, path[1..]);
      }
      forall j | 1 <= j < |path|
        ensures path[0] != path[j]
      {
        if path[0] in rank {
          assert rank[path[1]] < rank[path[0]];
        } else {
          assert path[j] in rank;
        }
      }
    }
  }

  /** Ranks do not increase along a ranked parent chain. */
  lemma {:induction false} RanksDescend(nodes: map<Pos, Node>, rank: map<Pos, nat>, path: seq<Pos>)
    requires ParentChain(nodes, path) && Ranked(nodes, rank)
    requires forall i :: 0 <= i < |path| ==> path[i] in rank
    ensures forall j :: 0 <= j < |path| ==> rank[path[j]] <= rank[path[0]]
  {
    if |path| > 1 {
      assert ParentChain(nodes, path[1..]);
      RanksDescend(nodes, rank, path[1..]);
      assert nodes[path[0]].parent == Some(path[1]);
      assert forall j :: 1 <= j < |path| ==> path[j] == path[1..][j - 1];
    }
  }
}

=== FILE: search.dfy ===
/** The A* search loop shared by PathFind and PicturePathFind: seed the walls
    into the closed set, then repeatedly take the open node of least f, stop at
    the goal, otherwise close it and relax its neighbours. */
module AStarSearch {
  import opened GridModel
  import opened Neighbourhood
  import opened OpenList
  import opened PathReconstruction

  /** DirectionDistance, the Euclidean distance between two cells. It is both
      the edge cost and the heuristic; the search treats it as a given
      function of the two coordinates. */
  type Distance = (Pos, Pos) -> real

  /** The search context: one node per cell, the open list and the closed set. */
  datatype State = State(nodes: map<Pos, Node>, open: seq<Pos>, closed: set<Pos>)

  /** How a search ends. `StartOutOfRange` stands for the index exception the
      grid lookup of the start position raises. */
  datatype Outcome = Found(path: seq<Pos>) | NotFound | StartOutOfRange

  /** A node as the grid builder creates it: g, f and parent at their defaults,
      h the distance to the goal. */
  function FreshNode(classify: Pos -> Cell, goal: Pos, dist: Distance, p: Pos): Node {
    Node(p, classify(p), 0.0, dist(p, goal), 0.0, None)
  }

  /** The cells classified as walls. */
  function WallCells(dimension: nat, classify: Pos -> Cell): set<Pos> {
    set p | p in Cells(dimension) && classify(p) == Closed
  }

  /** A state the loop can run on: one node per cell, open entries and
      closed cells and parents are cells. */
  predicate WellShaped(st: State, dimension: nat) {
    && st.nodes.Keys == Cells(dimension)
    && (forall p :: p in st.open ==> p in st.nodes)
    && st.closed <= st.nodes.Keys
    && ParentsInside(st.nodes)
  }

  /** Grid construction and seeding: every cell gets a fresh node, walls go
      into the closed set, the start gets g = 0 and its f, and the open list
      holds the start alone. */
  function Init(dimension: nat, classify: Pos -> Cell, start: Pos, goal: Pos, dist: Distance): (st: State)
    requires Bound(dimension, start)
    ensures WellShaped(st, dimension)
    ensures st.open == [start]
    ensures forall p :: p in st.closed <==> Bound(dimension, p) && classify(p) == Closed
    ensures forall p :: p in st.nodes ==> st.nodes[p].parent.None? && st.nodes[p].h == dist(p, goal)
    ensures st.nodes[start].g == 0.0 && st.nodes[start].f == dist(start, goal)
  {
    var grid := map p | p in Cells(dimension) :: FreshNode(classify, goal, dist, p);
    var startNode := GetFCost(grid[start].(g := 0.0));
    State(grid[start := startNode], [start], WallCells(dimension, classify))
  }

  /** One pass of the neighbour loop body for the displaced position `pos`:
      skip it when out of bounds or closed; otherwise, when it is new to the
      open list or the path through `current` is strictly cheaper, give it
      that g, its h and f, `current` as parent, and append it if new. */
  function Relax(st: State, dimension: nat, goal: Pos, dist: Distance, current: Pos, pos: Pos): (r: State)
    requires WellShaped(st, dimension) && current in st.nodes
    ensures WellShaped(r, dimension)
    ensures r.closed == st.closed
    ensures r.open == st.open || (r.open == st.open + [pos] && pos !in st.open && pos !in st.closed)
    ensures forall p :: p in st.nodes && p != pos ==> r.nodes[p] == st.nodes[p]
    ensures forall p :: p in st.closed && p in st.nodes ==> r.nodes[p] == st.nodes[p]
    ensures pos in st.nodes && r.nodes[pos] != st.nodes[pos] ==>
      && r.nodes[pos].parent == Some(current)
      && r.nodes[pos].g == st.nodes[current].g + dist(current, pos)
      && (pos in st.open ==> r.nodes[pos].g < st.nodes[pos].g)
    ensures pos in st.open && pos in st.nodes ==> r.nodes[pos].g <= st.nodes[pos].g
    ensures (&& Bound(dimension, pos) && pos !in st.closed
             && (pos !in st.open || st.nodes[current].g + dist(current, pos) < st.nodes[pos].g)) ==>
      && pos in r.open
      && r.nodes[pos].parent == Some(current)
      && r.nodes[pos].g == st.nodes[current].g + dist(current, pos)
      && r.nodes[pos].h == dist(pos, goal)
      && r.nodes[pos].f == r.nodes[pos].g + r.nodes[pos].h
    ensures (|| !Bound(dimension, pos) || pos in st.closed
             || (pos in st.open && st.nodes[current].g + dist(current, pos) >= st.nodes[pos].g)) ==> r == st
  {
    if !Bound(dimension, pos) || pos in st.closed then st
    else
      var gd := st.nodes[current].g + dist(current, pos);
      if pos !in st.open || gd < st.nodes[pos].g then
        var updated := GetFCost(st.nodes[pos].(g := gd, h := dist(pos, goal))).(parent := Some(current));
        State(st.nodes[pos := updated], if pos in st.open then st.open else st.open + [pos], st.closed)
      else st
  }

  /** The neighbour loop: `Relax` for each listed position in order. */
  function RelaxAll(st: State, dimension: nat, goal: Pos, dist: Distance, current: Pos, ns: seq<Pos>): (r: State)
    requires WellShaped(st, dimension) && current in st.nodes
    ensures WellShaped(r, dimension)
    ensures r.closed == st.closed
    ensures forall p :: p in st.closed && p in st.nodes ==> r.nodes[p] == st.nodes[p]
    ensures |st.open| <= |r.open| && r.open[..|st.open|] == st.open
    ensures forall p :: p in r.open && p !in st.open ==> p !in st.closed && p in ns
    decreases |ns|
  {
    if ns == [] then st
    else
      var next := Relax(st, dimension, goal, dist, current, ns[0]);
      var r := RelaxAll(next, dimension, goal, dist, current, ns[1..]);
      assert r.open[..|next.open|] == next.open;
      assert r.open[..|st.open|] == r.open[..|next.open|][..|st.open|];
      r
  }

  /** The neighbour loop leaves the node of an unlisted cell alone. */
  lemma {:induction false} RelaxAllFrame(st: State, dimension: nat, goal: Pos, dist: Distance, current: Pos,
                                         ns: seq<Pos>, q: Pos)
    requires WellShaped(st, dimension) && current in st.nodes && q in st.nodes && q !in ns
    ensures RelaxAll(st, dimension, goal, dist, current, ns).nodes[q] == st.nodes[q]
    decreases |ns|
  {
    if ns != [] {
      var next := Relax(st, dimension, goal, dist, current, ns[0]);
      RelaxAllFrame(next, dimension, goal, dist, current, ns[1..], q);
    }
  }

  /** A listed in-bounds cell that is neither closed nor open ends the
      neighbour loop with `current` as its parent, whatever its cost. */
  lemma {:induction false} RelaxAllAdopts(st: State, dimension: nat, goal: Pos, dist: Distance, current: Pos,
                                          ns: seq<Pos>, q: Pos)
    requires WellShaped(st, dimension) && current in st.nodes
    requires q in ns && Bound(dimension, q) && q !in st.closed
    requires q !in st.open || st.nodes[q].parent == Some(current)
    ensures RelaxAll(st, dimension, goal, dist, current, ns).nodes[q].parent == Some(current)
    decreases |ns|
  {
    var next := Relax(st, dimension, goal, dist, current, ns[0]);
    assert q in st.nodes;
    if ns[0] == q {
      assert q in next.open && next.nodes[q].parent == Some(current);
      if q in ns[1..] {
        RelaxAllAdopts(next, dimension, goal, dist, current, ns[1..], q);
      } else {
        RelaxAllFrame(next, dimension, goal, dist, current, ns[1..], q);
      }
    } else {
      assert q in ns[1..];
      RelaxAllAdopts(next, dimension, goal, dist, current, ns[1..], q);
    }
  }

  /** One iteration after the goal test: move `current` from the open list to
      the closed set, then relax its neighbours. */
  function Expand(st: State, dimension: nat, goal: Pos, dist: Distance, rule: NeighbourRule, current: Pos): (r: State)
    requires WellShaped(st, dimension) && current in st.open
    ensures WellShaped(r, dimension)
    ensures r.closed == st.closed + {current}
    ensures forall p :: p in st.closed + {current} ==> r.nodes[p] == st.nodes[p]
  {
    var removed := Removed(st, dimension, current);
    RelaxAll(removed, dimension, goal, dist, current, Neighbours(rule, current))
  }

  /** The state between the two halves of an iteration: `current` taken off
      the open list and added to the closed set. */
  function Removed(st: State, dimension: nat, current: Pos): (r: State)
    requires WellShaped(st, dimension) && current in st.open
    ensures WellShaped(r, dimension)
  {
    var r := State(st.nodes, RemoveFirst(st.open, current), st.closed + {current});
    assert forall p :: p in r.open ==> p in multiset(r.open);
    r
  }

  /** An iteration moves exactly `current` out of a duplicate-free open list:
      it leaves the list, every other open cell stays, and the closed set
      grows by `current` alone. */
  lemma ExpandMovesOne(st: State, dimension: nat, goal: Pos, dist: Distance, rule: NeighbourRule, current: Pos)
    requires WellShaped(st, dimension) && current in st.open && NoDup(st.open)
    ensures var r := Expand(st, dimension, goal, dist, rule, current);
      && current !in r.open
      && (forall p :: p in st.open && p != current ==> p in r.open)
      && r.closed == st.closed + {current}
  {
    var removed := Removed(st, dimension, current);
    var r := Expand(st, dimension, goal, dist, rule, current);
    RemoveFirstMembers(st.open, current);
    forall p | p in removed.open
      ensures p in r.open
    {
      var i :| 0 <= i < |removed.open| && removed.open[i] == p;
      assert r.open[..|removed.open|][i] == p;
    }
  }

  /** The loop as a function of its state: stop with `NotFound` when the
      open list is empty, otherwise run one iteration. `fuel` bounds the
      number of iterations (the loop itself needs no bound: `PathFind`). */
  function Run(st: State, dimension: nat, goal: Pos, dist: Distance, rule: NeighbourRule, fuel: nat): (r: Outcome)
    requires WellShaped(st, dimension)
    ensures !r.StartOutOfRange?
    decreases fuel, 2
  {
    if fuel == 0 || |st.open| == 0 then NotFound
    else Iterate(st, dimension, goal, dist, rule, fuel)
  }

  /** One iteration on a non-empty open list: extract the node of least f,
      succeed if it is the goal, otherwise expand it and go on. */
  function Iterate(st: State, dimension: nat, goal: Pos, dist: Distance, rule: NeighbourRule, fuel: nat): (r: Outcome)
    requires WellShaped(st, dimension) && fuel > 0 && |st.open| > 0
    ensures !r.StartOutOfRange?
    decreases fuel, 1
  {
    var current := st.open[LowestIndex(FCosts(st.open, st.nodes))];
    if current == goal then Found(ReconstructPath(st.nodes, goal))
    else Proceed(st, dimension, goal, dist, rule, current, fuel)
  }

  /** The rest of an iteration whose extracted node is not the goal: expand
      it and run on. */
  function Proceed(st: State, dimension: nat, goal: Pos, dist: Distance, rule: NeighbourRule, current: Pos, fuel: nat): (r: Outcome)
    requires WellShaped(st, dimension) && fuel > 0 && current in st.open
    ensures !r.StartOutOfRange?
    decreases fuel, 0
  {
    Run(Expand(st, dimension, goal, dist, rule, current), dimension, goal, dist, rule, fuel - 1)
  }

  /** A whole search on a fresh grid, with one iteration per cell and one to spare. */
  function Search(dimension: nat, classify: Pos -> Cell, start: Pos, goal: Pos, dist: Distance, rule: NeighbourRule): Outcome {
    if !Bound(dimension, start) then StartOutOfRange
    else Run(Init(dimension, classify, start, goal, dist), dimension, goal, dist, rule, |Cells(dimension)| + 1)
  }
}
